=== FILE: README.md ===
# Podcast player session: a Dafny model

This project models the playback core of a podcast-listening web front end.
It covers three parts:

- **The playback session controller** (`PlayerContext`). It holds a record with
  the queue (`episodeList`), the order the queue was loaded in
  (`orderEpisodeList`), `currentEpisodeIndex`, and the flags `isPlaying`,
  `isLooping` and `isShuffling`. Its transitions are `play`, `playList`,
  `togglePlay`, `toggleLoop`, `setPlayingState`, `playNext`, `playPrevious`
  and `toggleShuffle`.
- **The player component's event bridge** (`Player`). It handles media
  "ended", "play", "pause", "loadedmetadata" and "timeupdate" events, seeks,
  and button clicks behind their `disabled` guards. Each one is a transition
  over the controller state plus the displayed `progress` and the media
  element's playback position.
- **The duration formatter** (`DurationFormat`). It turns seconds into
  `HH:MM:SS`.

Every operation is a pure function from state to state. The `Shuffle` module
holds the swap loop that `toggleShuffle` runs over the unplayed episodes. It
is written twice: as a recursive function that the transition uses, and as a
method with a loop, proved to compute the same thing. The random draws are an
oracle parameter, `picks`. Each draw lies in `[0, i)` for the index `i` its
iteration handles, which is the range `Math.floor(Math.random() * i)` yields.

Files:
- `wrappers.dfy`: the `Option` type.
- `episodes.dfy`: the episode record and lookup by id.
- `shuffle.dfy`: the swap loop.
- `player_context.dfy`: the controller.
- `player.dfy`: the event bridge.
- `home_page.dfy`: the home page's index offset.
- `duration_format.dfy`: the formatter.

## Behaviour worth knowing

- **Shuffle draws.** A textbook Fisher–Yates shuffle draws the swap partner
  from `[0, i]`. The code draws it from `[0, i)`, which is Sattolo's
  algorithm and only produces cyclic orders. `Shuffle.LastElementAlwaysMoves`
  and `Shuffle.TwoElementsAlwaysSwapped` show that the last unplayed episode
  always moves. The model keeps the code's bound.
- **Progress on an episode change.** Nothing resets `progress` when the
  episode changes. The media element's position goes back to 0 when the new
  metadata loads, and the displayed `progress` follows at the next time update.
- **Looping.** The element's `loop` attribute is bound to `isLooping`. A
  looping element restarts by itself and raises no "ended" event, so the
  model has it restart at position 0 without running the "ended" handler.
- **`playPrevious` at the start.** At or below 0 it sets the index to 0.
  That is a no-op at 0 and moves a negative index up to 0.
- **`playList` range.** `playList` accepts any index, and so does the model.
  Only the invariant-preservation lemma requires the index to be in range.

## Model

| member | source | states |
|---|---|---|
| Episodes.FindIndexById | src/contexts/PlayerContext.tsx:82-84 | the result is -1 exactly when no episode has the id; otherwise it is the first position holding that id |
| Episodes.FoundAtItsPosition | src/contexts/PlayerContext.tsx:82-84 | with distinct ids, looking up the id at position i returns i |
| PlayerContext.HasPrevious | src/contexts/PlayerContext.tsx:46 | true exactly when the index is above 0; `PlayPreviousMovesIffHasPrevious` ties it to `playPrevious` |
| PlayerContext.HasNext | src/contexts/PlayerContext.tsx:47 | true exactly when the index is before the last position; `PlayNextMovesIffHasNext` ties it to `playNext` |
| PlayerContext.CurrentEpisodeId | src/contexts/PlayerContext.tsx:49-55 | on an empty queue the id last published stays; otherwise the id is found in the queue at or before the current index, and exactly at it when ids are distinct |
| Shuffle.Swap | src/contexts/PlayerContext.tsx:96-98 | exchanging two in-range positions puts each element in the other's place and keeps every other position |
| Shuffle.SwapThroughTemporary | src/contexts/PlayerContext.tsx:96-98 | the three assignments through `temp` produce exactly that exchange |
| Shuffle.SwapPermutes | src/contexts/PlayerContext.tsx:96-98 | an exchange keeps the multiset |
| Shuffle.LoopState | src/contexts/PlayerContext.tsx:94-99 | the sequence once the loop variable has come down to i, of the same length as the unplayed episodes; `LoopStatePermutes` and `LoopStateKeepsAbove` say how it relates to them |
| Shuffle.ShuffleRest | src/contexts/PlayerContext.tsx:94-99 | the loop from the last index down to 1, swapping through a temporary, keeps the length and the multiset of the unplayed episodes; with two or more of them the last slot receives the element at the first draw, a position strictly below the last; and the result is what `ToggleShuffle` uses |
| Shuffle.LoopStatePermutes | src/contexts/PlayerContext.tsx:94-99 | at every value of the loop variable the sequence is a permutation of the unplayed episodes |
| Shuffle.Shuffled | src/contexts/PlayerContext.tsx:91-99 | the loop run to its exit has the same length and multiset as the unplayed episodes |
| Shuffle.LoopStateKeepsAbove | src/contexts/PlayerContext.tsx:94-99 | once the loop variable is below m, positions above m never change again |
| Shuffle.LastElementAlwaysMoves | src/contexts/PlayerContext.tsx:94-95 | with at least two distinct unplayed episodes, the last one never stays in place because the draw is strictly below i |
| Shuffle.TwoElementsAlwaysSwapped | src/contexts/PlayerContext.tsx:94-95 | with exactly two unplayed episodes, every draw exchanges them |
| PlayerContext.PlayList | src/contexts/PlayerContext.tsx:64-69 | queue and saved order both become the list, the index becomes the argument, playing turns on, loop and shuffle flags stay; hasNext and hasPrevious then follow the index |
| PlayerContext.Play | src/contexts/PlayerContext.tsx:57-62 | the same as playList of the one-element list at 0; the episode is current and has no neighbours |
| PlayerContext.TogglePlay | src/contexts/PlayerContext.tsx:71-73 | flips isPlaying and changes nothing else |
| PlayerContext.ToggleLoop | src/contexts/PlayerContext.tsx:75-77 | flips isLooping and changes nothing else |
| PlayerContext.SetPlayingState | src/contexts/PlayerContext.tsx:107-109 | isPlaying becomes the argument and nothing else changes |
| PlayerContext.PlayNext | src/contexts/PlayerContext.tsx:111-121 | only the index changes, by 0 or +1, and it never goes past the queue |
| PlayerContext.PlayPrevious | src/contexts/PlayerContext.tsx:123-131 | only the index changes, it never becomes negative, it never grows from a valid index, and at or below 0 it becomes exactly 0 |
| PlayerContext.ShuffleOn | src/contexts/PlayerContext.tsx:91-103 | enabling keeps every field but the queue and the flag, keeps the played prefix including the current episode, and replaces the rest by the swap loop's reordering of it; the whole queue keeps its multiset |
| PlayerContext.ShuffleOff | src/contexts/PlayerContext.tsx:81-88 | disabling restores the saved order and clears the flag; the new index holds an episode with the old current id, and it is -1 exactly when no saved episode has that id |
| PlayerContext.ToggleShuffle | src/contexts/PlayerContext.tsx:79-105 | the flag flips while the other flags and the saved order stay; enabling keeps the played prefix, the index and the length, permutes the rest and so the whole queue; disabling restores the saved order and lands on an episode with the old current id, or on -1 only if no saved episode has it |
| PlayerContext.InitialState | src/contexts/PlayerContext.tsx:38-47 | the initial state has neither previous nor next and satisfies the invariant |
| PlayerContext.PlayNextMovesIffHasNext | src/contexts/PlayerContext.tsx:111-121 | playNext changes the state exactly when hasNext holds, and then advances by one |
| PlayerContext.PlayPreviousMovesIffHasPrevious | src/contexts/PlayerContext.tsx:123-131 | from a non-negative index, playPrevious changes the state exactly when hasPrevious holds, and then steps back by one |
| PlayerContext.NextPreviousInverse | src/contexts/PlayerContext.tsx:111-131 | inside the queue, playPrevious undoes playNext and playNext undoes playPrevious |
| PlayerContext.EmptyQueueSteps | src/contexts/PlayerContext.tsx:46-47 | on an empty queue at index 0, hasNext and hasPrevious are false and both steps are no-ops |
| PlayerContext.FlagLaws | src/contexts/PlayerContext.tsx:71-77 | togglePlay and toggleLoop are involutions, togglePlay sets the negated state, setPlayingState is idempotent |
| PlayerContext.SimpleTransitionsKeepInv | src/contexts/PlayerContext.tsx:57-69 | play, playList with an in-range index, the flag setters and both steps keep the queue a permutation of the saved order and the index valid |
| PlayerContext.ShuffleOffRelocates | src/contexts/PlayerContext.tsx:81-86 | because the queue is a permutation of the saved order, findIndex never returns -1 when disabling, and the new current episode has the old id |
| PlayerContext.ToggleShuffleKeepsInv | src/contexts/PlayerContext.tsx:79-105 | both directions of the shuffle toggle keep the invariant |
| PlayerContext.ToggleShuffleKeepsCurrentEpisode | src/contexts/PlayerContext.tsx:49-55 | with distinct ids, toggling shuffle in either direction keeps the same current episode and the same published id |
| PlayerContext.ShuffleRoundTrip | src/contexts/PlayerContext.tsx:79-105 | enabling and then disabling shuffle restores the exact state: queue, index and flags |
| PlayerContext.ShuffleScenario | src/contexts/PlayerContext.tsx:91-101 | A, B, C, D at B shuffles to A, B, D, C and toggles back to A, B, C, D at B |
| Player.CurrentEpisode | src/components/Player/index.tsx:60 | an episode is present exactly when the index lies inside the queue, and then it is the queue's element at the current index |
| Player.OnEnded | src/components/Player/index.tsx:116 | with hasNext the index advances by exactly one and nothing else changes; otherwise nothing changes, isPlaying included |
| Player.MediaReachesEnd | src/components/Player/index.tsx:114-116 | while looping only the media position changes, back to 0, and the session, progress and listener stay; otherwise the ended handler runs; the index moves by at most one and isPlaying never changes |
| Player.OnPlay | src/components/Player/index.tsx:117 | the play event calls setPlayingState(true) and touches nothing else |
| Player.OnPause | src/components/Player/index.tsx:118 | the pause event calls setPlayingState(false) and touches nothing else |
| Player.OnLoadedMetadata | src/components/Player/index.tsx:47-53 | the media position goes to 0 and the listener is registered; session and progress are untouched |
| Player.OnTimeUpdate | src/components/Player/index.tsx:50-52 | the position becomes the floored time, and progress follows it only once the listener is registered |
| Player.HandleSeek | src/components/Player/index.tsx:55-58 | both the media position and progress become exactly the seek amount |
| Player.Enabled | src/components/Player/index.tsx:129-171 | every button needs a current episode; shuffle also needs a queue that is not exactly one long, previous needs hasPrevious, next needs hasNext |
| Player.Click | src/components/Player/index.tsx:123-174 | a disabled button changes nothing and no click touches progress or the media position; enabled, play flips isPlaying, loop flips isLooping, shuffle runs `toggleShuffle` exactly (flipping isShuffling and keeping the other flags and the saved order), next and previous move the index by one and change nothing else; an enabled click leaves an episode current, except possibly when shuffle was on |
| Player.StepButtonsLandOnEpisode | src/components/Player/index.tsx:134-164 | enabled previous and next buttons move the index by exactly one onto an existing episode |
| Player.ShuffleGuardEstablishesPrecondition | src/components/Player/index.tsx:129 | an enabled shuffle button means an episode is current and the queue has at least two episodes |
| Player.EventsKeepInv | src/components/Player/index.tsx:114-174 | every click and media event keeps the controller invariant |
| Player.LoopingKeepsIndex | src/components/Player/index.tsx:114 | while looping, reaching the end never changes the index |
| Player.ProgressFollowsMetadata | src/components/Player/index.tsx:47-53 | before metadata loads, time updates do not touch progress; after it, the position restarts at 0 and the next update is recorded |
| Player.SeekThenUpdateAgree | src/components/Player/index.tsx:50-58 | a seek followed by an update at the same position keeps progress at the seek amount |
| Player.PlayPauseEvents | src/components/Player/index.tsx:117-118 | play and pause events are idempotent, the later one wins, and they set isPlaying to true and false |
| Player.LoopScenario | src/components/Player/index.tsx:114-116 | A, B, C: next gives B, B replays while looping, and once looping is off it advances to C |
| HomePage.OffsetPicksSameEpisode | src/pages/index.tsx:132 | playing row i of the second table starts the concatenated list at that row's episode, with the invariant kept |
| DurationFormat.DecimalString | src/utils/convertDurationToTimeString.ts:7 | the rendering is non-empty digits, with no leading zero once it is longer than one character (0 is "0"), and at most two characters exactly below 100; `DecimalRoundTrip` fixes its value |
| DurationFormat.DecimalRoundTrip | src/utils/convertDurationToTimeString.ts:7 | reading the rendering back gives the number |
| DurationFormat.PadStart | src/utils/convertDurationToTimeString.ts:7 | the result ends with the input, is filled on the left up to the target, and is never truncated |
| DurationFormat.LeadingZerosIgnored | src/utils/convertDurationToTimeString.ts:7 | zero padding does not change the value read |
| DurationFormat.Field | src/utils/convertDurationToTimeString.ts:7 | each field is digits that read back as the unit; it is two long below 100, and from 100 on it is the plain rendering, with no zero added |
| DurationFormat.Join | src/utils/convertDurationToTimeString.ts:8 | the result starts with the first field, a single field comes back unchanged, and with more fields the separator follows the first one; `SplitJoin` shows that splitting undoes it |
| DurationFormat.SplitJoin | src/utils/convertDurationToTimeString.ts:6-8 | splitting at the separator undoes joining fields that do not contain it |
| DurationFormat.Units | src/utils/convertDurationToTimeString.ts:2-4 | minutes and seconds are below 60 and hours*3600 + minutes*60 + seconds is the duration |
| DurationFormat.ConvertDurationToTimeString | src/utils/convertDurationToTimeString.ts:1-11 | parsing the output as three ":"-separated digit fields gives back the hours, minutes and seconds of the duration |
| DurationFormat.FormatShape | src/utils/convertDurationToTimeString.ts:6-8 | the output is exactly the three padded fields joined by two ':' characters |
| DurationFormat.FormatLength | src/utils/convertDurationToTimeString.ts:6-8 | below 360000 seconds the output has 8 characters |
| DurationFormat.FormatInjective | src/utils/convertDurationToTimeString.ts:1-11 | different durations give different strings |
| DurationFormat.FormatZero | src/utils/convertDurationToTimeString.ts:1-11 | 0 gives "00:00:00" |
| DurationFormat.FormatMinuteAndSeconds | src/utils/convertDurationToTimeString.ts:1-11 | 65 gives "00:01:05" |
| DurationFormat.FormatHourMinuteSeconds | src/utils/convertDurationToTimeString.ts:1-11 | 3725 gives "01:02:05" |

## Left out

- Randomness: `Math.random` is replaced by the oracle `picks`, whose values lie in `[0, i)`. Uniformity is not stated. The floating-point product before `Math.floor` is not modelled.
- PlayerContext.ToggleShuffle: requires an episode at the current index, because the shuffle button only calls it then. An out-of-range call is not modelled. When disabling with a non-empty saved order, the code throws a TypeError. When enabling at -1, the slices are the empty prefix and the whole queue, so everything is reshuffled; at -2 or below the slices use negative offsets; at an index of the queue length or more nothing is reshuffled.
- PlayerContext.CurrentEpisodeId: requires an episode at the current index whenever the queue is non-empty. With a non-empty queue and an index outside it (such as -1 from `findIndex`), the effect at PlayerContext.tsx:54 throws a TypeError. That error path is not modelled. `Inv` rules it out for every reachable state.
- React mechanics: state batching, closures, and the setters nested inside the `setIsShuffling` updater. Each exported operation is one atomic transition.
- `currentEpisodeId` (PlayerContext.tsx:49-55) is a derived value, `CurrentEpisodeId`. It is not a stored field.
- The `isPlaying` effect that calls the media element's `play()`/`pause()` (Player/index.tsx:35-45). It issues commands to the media element and changes no state.
- The media element's `currentTime` is a float. The model takes each time update as an already-floored whole number of seconds.
- Player.MediaReachesEnd: does not compose the "pause" event that a playing media element raises before "ended" at the end of its media. The `onPause` handler (Player/index.tsx:118) then clears `isPlaying`, so the real end-of-queue state has `isPlaying` false. Each handler is modelled on its own, and `OnPause` covers that step.
- A new time-update listener is added on every metadata load. All of them write the same value, so the model uses one `listening` flag.
- The slider bounds a seek to `[0, duration]`. `HandleSeek` accepts any natural number.
- Rendering: JSX, `Slider`, `Image`, tooltips, CSS classes, and the unused `isOpen` state.
- The formatter is modelled on natural numbers only. Negative or fractional durations are outside its documented range.
- DurationFormat.ConvertDurationToTimeString: works on unbounded naturals, while the code's `duration` is a JavaScript number and is exact only below 2^53. Above that, not every natural is representable and the division by 3600 can round. From 10^21 hours on, `String(unit)` switches to exponent notation. The parse-back, `FormatInjective` and "hours are never truncated" hold for the code only on durations a JavaScript number holds exactly.
- The rest of the repository: the episode fetch and date formatting of the pages, `_app.tsx`, `ThemeContext.tsx`, `Header`, the type-only `PlayerContext.ts`, and the episode page.

=== FILE: duration_format.dfy ===
/** `convertDurationToTimeString`: a whole number of seconds as hours,
    minutes and seconds, each written in decimal, left-padded with '0' to two
    characters and joined with ':'. Hours are never truncated. Durations are
    unbounded naturals here; the code works on JavaScript numbers. */
module DurationFormat {
  import opened Wrappers

  predicate IsDigit(c: char)
  {
    '0' <= c <= '9'
  }

  predicate AllDigits(s: string)
  {
    forall k :: 0 <= k < |s| ==> IsDigit(s[k])
  }

  function DigitChar(d: nat): (c: char)
    requires d < 10
    ensures IsDigit(c)
  {
    (48 + d) as char
  }

  function DigitValue(c: char): (d: nat)
    requires IsDigit(c)
    ensures d < 10
    ensures DigitChar(d) == c
  {
    c as int - 48
  }

  /** `String(n)` for a natural number: its shortest decimal rendering. */
  function DecimalString(n: nat): (s: string)
    ensures 1 <= |s| && AllDigits(s)
    ensures |s| <= 2 <==> n < 100
    ensures s[0] == '0' ==> n == 0
    ensures 2 <= |s| ==> s[0] != '0'
  {
    if n < 10 then [DigitChar(n)]
    else DecimalString(n / 10) + [DigitChar(n % 10)]
  }

  /** The value of a string of decimal digits; leading zeros are allowed. */
  function ParseDecimal(s: string): nat
    requires AllDigits(s)
  {
    if |s| == 0 then 0
    else ParseDecimal(s[..|s| - 1]) * 10 + DigitValue(s[|s| - 1])
  }

  /** Reading the rendering back gives the number. */
  lemma {:induction false} DecimalRoundTrip(n: nat)
    ensures ParseDecimal(DecimalString(n)) == n
  {
    var s := DecimalString(n);
    if n >= 10 {
      var t := DecimalString(n / 10);
      assert s[..|s| - 1] == t;
      DecimalRoundTrip(n / 10);
      assert DigitValue(DigitChar(n % 10)) == n % 10;
    } else {
      assert DigitValue(DigitChar(n)) == n;
    }
  }

  /** `padStart(target, fill)`: fill on the left up to `target` characters;
      a string already that long is returned whole. */
  function PadStart(s: string, target: nat, fill: char): (r: string)
    ensures |r| == if |s| >= target then |s| else target
    ensures r[|r| - |s|..] == s
    ensures forall k :: 0 <= k < |r| - |s| ==> r[k] == fill
  {
    if |s| >= target then s else seq(target - |s|, _ => fill) + s
  }

  /** A string of zeros reads as 0. */
  lemma {:induction false} ZerosReadAsZero(z: string)
    requires forall k :: 0 <= k < |z| ==> z[k] == '0'
    ensures AllDigits(z) && ParseDecimal(z) == 0
  {
    if |z| > 0 {
      ZerosReadAsZero(z[..|z| - 1]);
    }
  }

  /** Leading zeros do not change the value read. */
  lemma {:induction false} LeadingZerosIgnored(z: string, s: string)
    requires forall k :: 0 <= k < |z| ==> z[k] == '0'
    requires AllDigits(s)
    ensures AllDigits(z + s) && ParseDecimal(z + s) == ParseDecimal(s)
    decreases |s|
  {
    if |s| == 0 {
      assert z + s == z;
      ZerosReadAsZero(z);
    } else {
      var zs := z + s;
      assert zs[..|zs| - 1] == z + s[..|s| - 1];
      LeadingZerosIgnored(z, s[..|s| - 1]);
    }
  }

  /** One field of the output: `String(unit).padStart(2, '0')`. */
  function Field(unit: nat): (f: string)
    ensures AllDigits(f) && ParseDecimal(f) == unit
    ensures 2 <= |f|
    ensures unit < 100 <==> |f| == 2
    ensures |f| == if unit < 100 then 2 else |DecimalString(unit)|
    ensures 100 <= unit ==> f == DecimalString(unit)
  {
    var digits := DecimalString(unit);
    var f := PadStart(digits, 2, '0');
    DecimalRoundTrip(unit);
    assert f == f[..|f| - |digits|] + digits;
    LeadingZerosIgnored(f[..|f| - |digits|], digits);
    f
  }

  /** `Array.prototype.join` with a one-character separator: the first field,
      then the separator before each further field. */
  function Join(fields: seq<string>, sep: char): (r: string)
    ensures 1 <= |fields| ==> fields[0] <= r
    ensures 2 <= |fields| ==> |fields[0]| < |r| && r[|fields[0]|] == sep
    ensures |fields| == 1 ==> r == fields[0]
  {
    if |fields| == 0 then ""
    else if |fields| == 1 then fields[0]
    else fields[0] + [sep] + Join(fields[1..], sep)
  }

  /** Cut a string at every occurrence of the separator (`String.prototype.split`). */
  function Split(s: string, sep: char): (parts: seq<string>)
    ensures 1 <= |parts|
  {
    if |s| == 0 then [""]
    else
      var rest := Split(s[1..], sep);
      if s[0] == sep then [""] + rest
      else [[s[0]] + rest[0]] + rest[1..]
  }

  lemma {:induction false} SplitWithoutSeparator(s: string, sep: char)
    requires sep !in s
    ensures Split(s, sep) == [s]
  {
    if |s| > 0 {
      SplitWithoutSeparator(s[1..], sep);
      assert [s[0]] + s[1..] == s;
    }
  }

  lemma {:induction false} SplitAtFirstSeparator(a: string, sep: char, b: string)
    requires sep !in a
    ensures Split(a + [sep] + b, sep) == [a] + Split(b, sep)
  {
    if |a| > 0 {
      var s := a + [sep] + b;
      assert s[1..] == a[1..] + [sep] + b;
      SplitAtFirstSeparator(a[1..], sep, b);
      assert [a[0]] + a[1..] == a;
    } else {
      assert a + [sep] + b == [sep] + b;
    }
  }

  /** Splitting undoes joining fields that do not contain the separator. */
  lemma {:induction false} SplitJoin(fields: seq<string>, sep: char)
    requires 1 <= |fields|
    requires forall k :: 0 <= k < |fields| ==> sep !in fields[k]
    ensures Split(Join(fields, sep), sep) == fields
  {
    if |fields| == 1 {
      SplitWithoutSeparator(fields[0], sep);
    } else {
      SplitJoin(fields[1..], sep);
      SplitAtFirstSeparator(fields[0], sep, Join(fields[1..], sep));
      assert [fields[0]] + fields[1..] == fields;
    }
  }

  /** A duration split into hours, minutes and seconds. */
  datatype Hms = Hms(hours: nat, minutes: nat, seconds: nat)

  /** Hours, minutes and seconds: the seconds of the hour and the seconds of
      the minute are each below 60, and together they add back up. */
  function Units(duration: nat): (u: Hms)
    ensures u.minutes < 60 && u.seconds < 60
    ensures u.hours * 3600 + u.minutes * 60 + u.seconds == duration
  {
    var hours := duration / 3600;
    var minutes := (duration % 3600) / 60;
    var seconds := duration % 60;
    assert duration % 3600 == minutes * 60 + (duration % 3600) % 60;
    assert (duration % 3600) % 60 == seconds by {
      assert duration == hours * 3600 + duration % 3600;
      assert hours * 3600 == (hours * 60) * 60;
    }
    Hms(hours, minutes, seconds)
  }

  /** `convertDurationToTimeString`: hours, minutes and seconds, each padded
      to two digits, joined by ':'. Reading the result back gives the units. */
  function ConvertDurationToTimeString(duration: nat): (r: string)
    ensures ParseTimeString(r) == Some(Units(duration))
  {
    var u := Units(duration);
    var fields := [Field(u.hours), Field(u.minutes), Field(u.seconds)];
    DigitsHaveNoColon(fields[0]);
    DigitsHaveNoColon(fields[1]);
    DigitsHaveNoColon(fields[2]);
    SplitJoin(fields, ':');
    Join(fields, ':')
  }

  /** Read an `HH:MM:SS` string back: three non-empty digit fields. */
  function ParseTimeString(t: string): Option<Hms>
  {
    var parts := Split(t, ':');
    if |parts| == 3
       && AllDigits(parts[0]) && AllDigits(parts[1]) && AllDigits(parts[2])
       && |parts[0]| > 0 && |parts[1]| > 0 && |parts[2]| > 0
    then Some(Hms(ParseDecimal(parts[0]), ParseDecimal(parts[1]), ParseDecimal(parts[2])))
    else None
  }

  lemma DigitsHaveNoColon(f: string)
    requires AllDigits(f)
    ensures ':' !in f
  {
  }

  /** The output is three digit fields of at least two characters, joined by
      two ':' and nothing else. */
  lemma FormatShape(duration: nat)
    ensures var u := Units(duration);
      Split(ConvertDurationToTimeString(duration), ':') == [Field(u.hours), Field(u.minutes), Field(u.seconds)]
    ensures ConvertDurationToTimeString(duration)
         == Field(Units(duration).hours) + ":" + Field(Units(duration).minutes) + ":" + Field(Units(duration).seconds)
  {
    var u := Units(duration);
    var fields := [Field(u.hours), Field(u.minutes), Field(u.seconds)];
    DigitsHaveNoColon(fields[0]);
    DigitsHaveNoColon(fields[1]);
    DigitsHaveNoColon(fields[2]);
    SplitJoin(fields, ':');
    assert fields[1..][1..] == [fields[2]];
    assert Join(fields[1..], ':') == fields[1] + ":" + fields[2];
  }

  /** Below 100 hours every field has two characters: eight in all. */
  lemma FormatLength(duration: nat)
    requires duration < 360000
    ensures |ConvertDurationToTimeString(duration)| == 8
  {
    FormatShape(duration);
  }

  /** Different durations give different strings. */
  lemma FormatInjective(d1: nat, d2: nat)
    requires ConvertDurationToTimeString(d1) == ConvertDurationToTimeString(d2)
    ensures d1 == d2
  {
  }

  /** Single-digit units get one leading zero. */
  lemma SmallField(unit: nat)
    requires unit < 10
    ensures Field(unit) == ['0', DigitChar(unit)]
  {
  }

  lemma FormatZero()
    ensures ConvertDurationToTimeString(0) == "00:00:00"
  {
    SmallField(0);
    assert Units(0) == Hms(0, 0, 0);
    FormatShape(0);
  }

  lemma FormatMinuteAndSeconds()
    ensures ConvertDurationToTimeString(65) == "00:01:05"
  {
    SmallField(0);
    SmallField(1);
    SmallField(5);
    assert Units(65) == Hms(0, 1, 5);
    assert Field(0) == "00" && Field(1) == "01" && Field(5) == "05";
    FormatShape(65);
  }

  lemma FormatHourMinuteSeconds()
    ensures ConvertDurationToTimeString(3725) == "01:02:05"
  {
    SmallField(1);
    SmallField(2);
    SmallField(5);
    assert Units(3725) == Hms(1, 2, 5);
    assert Field(1) == "01" && Field(2) == "02" && Field(5) == "05";
    FormatShape(3725);
  }
}

=== FILE: episodes.dfy ===
/** The episode record the player context works on, and lookup by id. */
module Episodes {

  /** One playable episode (EpisodeProps). The data source promises unique ids. */
  datatype Episode = Episode(
    id: string,
    title: string,
    members: string,
    thumbnail: string,
    duration: nat,
    url: string)

  /** No two positions of the list carry the same id. */
  predicate DistinctIds(list: seq<Episode>)
  {
    forall a, b :: 0 <= a < b < |list| ==> list[a].id != list[b].id
  }

  /** `findIndex` with the test `episode.id === id`: the first position whose
      id matches, or -1 when there is none. */
  function FindIndexById(list: seq<Episode>, id: string): (k: int)
    ensures -1 <= k < |list|
    ensures 0 <= k ==> list[k].id == id
    ensures 0 <= k ==> forall m :: 0 <= m < k ==> list[m].id != id
    ensures k == -1 <==> forall m :: 0 <= m < |list| ==> list[m].id != id
  {
    if |list| == 0 then -1
    else if list[0].id == id then 0
    else
      var k := FindIndexById(list[1..], id);
      if k < 0 then -1 else k + 1
  }

  /** An episode that occurs in the list is always found by its id. */
  lemma FoundWhenPresent(list: seq<Episode>, e: Episode)
    requires e in list
    ensures 0 <= FindIndexById(list, e.id)
  {
  }

  /** With distinct ids, the search returns exactly the position of the episode. */
  lemma FoundAtItsPosition(list: seq<Episode>, i: int)
    requires DistinctIds(list)
    requires 0 <= i < |list|
    ensures FindIndexById(list, list[i].id) == i
  {
  }
}

=== FILE: home_page.dfy ===
/** The home page's play buttons load the concatenation of the latest
    episodes and the rest, offsetting indices of the second table. */
module HomePage {
  import opened Wrappers
  import opened Episodes
  import opened PlayerContext
  import Player

  /** Playing row `index` of the second table starts the concatenated list at
      exactly that row's episode, with a state that keeps the invariant. */
  lemma OffsetPicksSameEpisode(s: Session, latest: seq<Episode>, all: seq<Episode>, index: int)
    requires Inv(s)
    requires 0 <= index < |all|
    ensures Player.CurrentEpisode(PlayList(s, latest + all, index + |latest|)) == Some(all[index])
    ensures Inv(PlayList(s, latest + all, index + |latest|))
  {
  }
}

=== FILE: player.dfy ===
/** The player component's bridge between the media element and the session
    controller. Its own state is the displayed `progress`, the media
    element's playback position (whole seconds) and whether the time-update
    listener has been registered. Every handler is one transition. */
module Player {
  import opened Wrappers
  import opened Episodes
  import opened PlayerContext
  import Shuffle

  datatype Surface = Surface(session: Session, progress: nat, position: nat, listening: bool)

  function InitialSurface(): Surface
  {
    Surface(Initial(), 0, 0, false)
  }

  /** `episodeList[currentEpisodeIndex]`: absent when the index is outside
      the queue, which is what the guards below test with `!episode`. */
  function CurrentEpisode(s: Session): (r: Option<Episode>)
    ensures r.Some? <==> HasCurrent(s)
    ensures r.Some? ==> r.value == s.episodeList[s.currentEpisodeIndex]
  {
    if HasCurrent(s) then Some(s.episodeList[s.currentEpisodeIndex]) else None
  }

  /** The "ended" handler: `hasNext && playNext()`. */
  function OnEnded(p: Surface): (r: Surface)
    ensures HasNext(p.session) ==>
      r == p.(session := p.session.(currentEpisodeIndex := p.session.currentEpisodeIndex + 1))
    ensures !HasNext(p.session) ==> r == p
  {
    if HasNext(p.session) then p.(session := PlayNext(p.session)) else p
  }

  /** The media element reaches the end of the episode. With the `loop`
      attribute bound to `isLooping` it restarts at 0 and raises no "ended"
      event; otherwise the "ended" handler runs. */
  function MediaReachesEnd(p: Surface): (r: Surface)
    ensures p.session.isLooping ==> r == p.(position := 0)
    ensures !p.session.isLooping ==> r == OnEnded(p)
    ensures r.session.currentEpisodeIndex == p.session.currentEpisodeIndex
         || r.session.currentEpisodeIndex == p.session.currentEpisodeIndex + 1
    ensures r.session.isPlaying == p.session.isPlaying
  {
    if p.session.isLooping then p.(position := 0) else OnEnded(p)
  }

  /** The element's "play" event. */
  function OnPlay(p: Surface): (r: Surface)
    ensures r.session == SetPlayingState(p.session, true)
    ensures r == p.(session := r.session)
  {
    p.(session := SetPlayingState(p.session, true))
  }

  /** The element's "pause" event. */
  function OnPause(p: Surface): (r: Surface)
    ensures r.session == SetPlayingState(p.session, false)
    ensures r == p.(session := r.session)
  {
    p.(session := SetPlayingState(p.session, false))
  }

  /** `setupProgressListener`, run when metadata has loaded: the playback
      position goes back to 0 and the time-update listener is in place. */
  function OnLoadedMetadata(p: Surface): (r: Surface)
    ensures r.position == 0 && r.listening
    ensures r.session == p.session && r.progress == p.progress
  {
    p.(position := 0, listening := true)
  }

  /** The element's playback position has moved to `seconds` (already
      floored) and it raises "timeupdate"; a registered listener copies the
      position into `progress`. */
  function OnTimeUpdate(p: Surface, seconds: nat): (r: Surface)
    ensures r.position == seconds
    ensures r.progress == (if p.listening then seconds else p.progress)
    ensures r.session == p.session && r.listening == p.listening
  {
    p.(position := seconds, progress := if p.listening then seconds else p.progress)
  }

  /** `handleSeek`: move the element to `amount` and show it at once. */
  function HandleSeek(p: Surface, amount: nat): (r: Surface)
    ensures r.progress == amount && r.position == amount
    ensures r.session == p.session && r.listening == p.listening
  {
    p.(position := amount, progress := amount)
  }

  datatype Button = ShuffleButton | PreviousButton | PlayButton | NextButton | LoopButton

  /** The `disabled` attributes, negated: every button needs an episode;
      shuffle also needs a queue longer than one, previous and next need a
      neighbour. */
  predicate Enabled(s: Session, b: Button)
  {
    CurrentEpisode(s).Some? &&
    match b
    case ShuffleButton => |s.episodeList| != 1
    case PreviousButton => HasPrevious(s)
    case PlayButton => true
    case NextButton => HasNext(s)
    case LoopButton => true
  }

  /** A click: a disabled button does nothing, an enabled one runs its
      controller operation. The guard is what makes `toggleShuffle` safe to
      call. `picks` is the random oracle for a shuffle. */
  function Click(p: Surface, b: Button, picks: seq<nat>): (r: Surface)
    requires b == ShuffleButton ==> Shuffle.ValidPicks(picks, |p.session.episodeList| - p.session.currentEpisodeIndex - 1)
    ensures !Enabled(p.session, b) ==> r == p
    ensures r.progress == p.progress && r.position == p.position && r.listening == p.listening
    ensures Enabled(p.session, b) ==> HasCurrent(r.session) || p.session.isShuffling
    ensures Enabled(p.session, b) && b == PlayButton ==>
      r.session.isPlaying != p.session.isPlaying && r.session == p.session.(isPlaying := r.session.isPlaying)
    ensures Enabled(p.session, b) && b == LoopButton ==>
      r.session.isLooping != p.session.isLooping && r.session == p.session.(isLooping := r.session.isLooping)
    ensures Enabled(p.session, b) && b == ShuffleButton ==> r.session == ToggleShuffle(p.session, picks)
    ensures Enabled(p.session, b) && b == NextButton ==>
      r.session == p.session.(currentEpisodeIndex := p.session.currentEpisodeIndex + 1)
    ensures Enabled(p.session, b) && b == PreviousButton ==>
      r.session == p.session.(currentEpisodeIndex := p.session.currentEpisodeIndex - 1)
  {
    if !Enabled(p.session, b) then p
    else
      var s := p.session;
      var s' := match b
        case ShuffleButton => ToggleShuffle(s, picks)
        case PreviousButton => PlayPrevious(s)
        case PlayButton => TogglePlay(s)
        case NextButton => PlayNext(s)
        case LoopButton => ToggleLoop(s);
      p.(session := s')
  }

  /** The enabled next and previous buttons move the index by exactly one
      and land on an episode. */
  lemma StepButtonsLandOnEpisode(p: Surface, picks: seq<nat>)
    ensures Enabled(p.session, NextButton) ==>
      && Click(p, NextButton, picks).session.currentEpisodeIndex == p.session.currentEpisodeIndex + 1
      && HasCurrent(Click(p, NextButton, picks).session)
    ensures Enabled(p.session, PreviousButton) ==>
      && Click(p, PreviousButton, picks).session.currentEpisodeIndex == p.session.currentEpisodeIndex - 1
      && HasCurrent(Click(p, PreviousButton, picks).session)
  {
  }

  /** The shuffle button is enabled only with an episode present and at
      least two in the queue, which covers `toggleShuffle`'s requirement. */
  lemma ShuffleGuardEstablishesPrecondition(s: Session)
    requires Enabled(s, ShuffleButton)
    ensures HasCurrent(s) && 2 <= |s.episodeList|
  {
  }

  /** Every click and every media event keeps the controller invariant. */
  lemma EventsKeepInv(p: Surface, b: Button, picks: seq<nat>, seconds: nat)
    requires Inv(p.session)
    requires b == ShuffleButton ==> Shuffle.ValidPicks(picks, |p.session.episodeList| - p.session.currentEpisodeIndex - 1)
    ensures Inv(Click(p, b, picks).session)
    ensures Inv(MediaReachesEnd(p).session) && Inv(OnEnded(p).session)
    ensures Inv(OnPlay(p).session) && Inv(OnPause(p).session)
    ensures Inv(OnLoadedMetadata(p).session) && Inv(OnTimeUpdate(p, seconds).session)
    ensures Inv(HandleSeek(p, seconds).session)
  {
    if Enabled(p.session, b) {
      match b
      case ShuffleButton => ToggleShuffleKeepsInv(p.session, picks);
      case _ =>
    }
  }

  /** While looping, the end of the media never moves the queue index. */
  lemma LoopingKeepsIndex(p: Surface)
    requires p.session.isLooping
    ensures MediaReachesEnd(p).session.currentEpisodeIndex == p.session.currentEpisodeIndex
  {
  }

  /** No time update is recorded before metadata has loaded; after it, the
      first update records the position counted from 0. */
  lemma ProgressFollowsMetadata(p: Surface, seconds: nat)
    ensures !p.listening ==> OnTimeUpdate(p, seconds).progress == p.progress
    ensures OnLoadedMetadata(p).position == 0
    ensures OnTimeUpdate(OnLoadedMetadata(p), seconds).progress == seconds
  {
  }

  /** A seek followed by the element reporting the same position leaves the
      displayed progress where the seek put it. */
  lemma SeekThenUpdateAgree(p: Surface, amount: nat)
    ensures OnTimeUpdate(HandleSeek(p, amount), amount).progress == amount
  {
  }

  /** Play and pause events are idempotent and the later one wins. */
  lemma PlayPauseEvents(p: Surface)
    ensures OnPlay(OnPlay(p)) == OnPlay(p) && OnPause(OnPause(p)) == OnPause(p)
    ensures OnPlay(OnPause(p)) == OnPlay(p) && OnPause(OnPlay(p)) == OnPause(p)
    ensures OnPlay(p).session.isPlaying && !OnPause(p).session.isPlaying
  {
  }

  /** The loop scenario: with A, B, C loaded at A, step to B, turn looping
      on and let B end: B replays. Turn looping off and let B end: C plays. */
  lemma LoopScenario(a: Episode, b: Episode, c: Episode)
    ensures
      var p0 := InitialSurface().(session := PlayList(Initial(), [a, b, c], 0));
      var p1 := Click(p0, NextButton, []);
      var p2 := Click(p1, LoopButton, []);
      var p3 := MediaReachesEnd(p2);
      var p4 := Click(p3, LoopButton, []);
      var p5 := MediaReachesEnd(p4);
      && p1.session.currentEpisodeIndex == 1
      && p3.session.currentEpisodeIndex == 1
      && p5.session.currentEpisodeIndex == 2
      && CurrentEpisode(p5.session) == Some(c)
  {
  }
}

=== FILE: player_context.dfy ===
/** The playback session controller: one state record and the transitions the
    player context exposes. Each transition is one atomic step from a state
    to a state. */
module PlayerContext {
  import opened Episodes
  import Shuffle

  /** The state held by the provider. `orderEpisodeList` is the queue as it
      was loaded, kept so that turning shuffle off can restore it. */
  datatype Session = Session(
    episodeList: seq<Episode>,
    orderEpisodeList: seq<Episode>,
    currentEpisodeIndex: int,
    isPlaying: bool,
    isLooping: bool,
    isShuffling: bool)

  /** The state before anything is played: empty queue, index 0, all flags off. */
  function Initial(): Session
  {
    Session([], [], 0, false, false, false)
  }

  predicate HasPrevious(s: Session)
  {
    s.currentEpisodeIndex > 0
  }

  predicate HasNext(s: Session)
  {
    s.currentEpisodeIndex < |s.episodeList| - 1
  }

  /** `episodeList[currentEpisodeIndex]` names an episode. */
  predicate HasCurrent(s: Session)
  {
    0 <= s.currentEpisodeIndex < |s.episodeList|
  }

  /** The id the provider publishes: the current episode's id once the queue
      is non-empty, and otherwise the id it last published (`last`). */
  function CurrentEpisodeId(s: Session, last: string): (id: string)
    requires |s.episodeList| == 0 || HasCurrent(s)
    ensures |s.episodeList| == 0 ==> id == last
    ensures |s.episodeList| > 0 ==> 0 <= FindIndexById(s.episodeList, id) <= s.currentEpisodeIndex
    ensures |s.episodeList| > 0 && DistinctIds(s.episodeList) ==>
      FindIndexById(s.episodeList, id) == s.currentEpisodeIndex
  {
    if |s.episodeList| == 0 then last
    else s.episodeList[s.currentEpisodeIndex].id
  }

  /** The invariant every reachable state keeps: the queue is a permutation
      of the saved order, equal to it while shuffle is off, and the index is
      a valid position whenever the queue is non-empty. */
  predicate Inv(s: Session)
  {
    && multiset(s.episodeList) == multiset(s.orderEpisodeList)
    && (!s.isShuffling ==> s.episodeList == s.orderEpisodeList)
    && 0 <= s.currentEpisodeIndex
    && (|s.episodeList| > 0 ==> s.currentEpisodeIndex < |s.episodeList|)
  }

  /** Load a list and start playing at `index`; loop and shuffle flags stay. */
  function PlayList(s: Session, list: seq<Episode>, index: int): (r: Session)
    ensures r.episodeList == list && r.orderEpisodeList == list
    ensures r.currentEpisodeIndex == index && r.isPlaying
    ensures r.isLooping == s.isLooping && r.isShuffling == s.isShuffling
    ensures HasNext(r) <==> index < |list| - 1
    ensures HasPrevious(r) <==> index > 0
  {
    s.(episodeList := list, orderEpisodeList := list, currentEpisodeIndex := index, isPlaying := true)
  }

  /** Play a single episode: the same as loading the one-element list at 0. */
  function Play(s: Session, e: Episode): (r: Session)
    ensures r == PlayList(s, [e], 0)
    ensures HasCurrent(r) && r.episodeList[r.currentEpisodeIndex] == e
    ensures !HasNext(r) && !HasPrevious(r)
  {
    s.(episodeList := [e], orderEpisodeList := [e], currentEpisodeIndex := 0, isPlaying := true)
  }

  function TogglePlay(s: Session): (r: Session)
    ensures r.isPlaying != s.isPlaying
    ensures r == s.(isPlaying := r.isPlaying)
  {
    s.(isPlaying := !s.isPlaying)
  }

  function ToggleLoop(s: Session): (r: Session)
    ensures r.isLooping != s.isLooping
    ensures r == s.(isLooping := r.isLooping)
  {
    s.(isLooping := !s.isLooping)
  }

  function SetPlayingState(s: Session, state: bool): (r: Session)
    ensures r.isPlaying == state
    ensures r == s.(isPlaying := r.isPlaying)
  {
    s.(isPlaying := state)
  }

  /** Advance to the next episode unless the current one is the last; the
      index never wraps. */
  function PlayNext(s: Session): (r: Session)
    ensures r == s.(currentEpisodeIndex := r.currentEpisodeIndex)
    ensures r.currentEpisodeIndex == s.currentEpisodeIndex || r.currentEpisodeIndex == s.currentEpisodeIndex + 1
    ensures r.currentEpisodeIndex < |s.episodeList| || r == s
  {
    var nextEpisodeIndex := s.currentEpisodeIndex + 1;
    if nextEpisodeIndex >= |s.episodeList| then s
    else s.(currentEpisodeIndex := nextEpisodeIndex)
  }

  /** Step back one episode; at or below 0 the index becomes 0. */
  function PlayPrevious(s: Session): (r: Session)
    ensures r == s.(currentEpisodeIndex := r.currentEpisodeIndex)
    ensures 0 <= r.currentEpisodeIndex
    ensures r.currentEpisodeIndex <= s.currentEpisodeIndex || s.currentEpisodeIndex < 0
    ensures s.currentEpisodeIndex <= 0 ==> r.currentEpisodeIndex == 0
  {
    if s.currentEpisodeIndex <= 0 then s.(currentEpisodeIndex := 0)
    else s.(currentEpisodeIndex := s.currentEpisodeIndex - 1)
  }

  /** Shuffle off to on: the episodes up to and including the current one
      stay in front, the rest are reordered by the swap loop with the oracle
      `picks`. */
  function ShuffleOn(s: Session, picks: seq<nat>): (r: Session)
    requires HasCurrent(s)
    requires Shuffle.ValidPicks(picks, |s.episodeList| - s.currentEpisodeIndex - 1)
    ensures r == s.(episodeList := r.episodeList, isShuffling := true)
    ensures |r.episodeList| == |s.episodeList|
    ensures r.episodeList[..s.currentEpisodeIndex + 1] == s.episodeList[..s.currentEpisodeIndex + 1]
    ensures r.episodeList[s.currentEpisodeIndex + 1..]
         == Shuffle.Shuffled(s.episodeList[s.currentEpisodeIndex + 1..], picks)
    ensures multiset(r.episodeList) == multiset(s.episodeList)
  {
    var k := s.currentEpisodeIndex + 1;
    var restOfEpisodes := s.episodeList[k..];
    var passedEpisodes := s.episodeList[..k];
    var shuffled := Shuffle.Shuffled(restOfEpisodes, picks);
    var list := passedEpisodes + shuffled;
    assert list[..k] == passedEpisodes;
    assert list[k..] == shuffled;
    assert s.episodeList == passedEpisodes + restOfEpisodes;
    s.(episodeList := list, isShuffling := true)
  }

  /** Shuffle on to off: the saved order comes back and the index is re-found
      by the current episode's id, -1 when no saved episode has it. */
  function ShuffleOff(s: Session): (r: Session)
    requires HasCurrent(s)
    ensures r == s.(episodeList := s.orderEpisodeList, currentEpisodeIndex := r.currentEpisodeIndex, isShuffling := false)
    ensures -1 <= r.currentEpisodeIndex < |r.episodeList|
    ensures 0 <= r.currentEpisodeIndex ==>
      r.episodeList[r.currentEpisodeIndex].id == s.episodeList[s.currentEpisodeIndex].id
    ensures r.currentEpisodeIndex == -1 <==>
      forall m :: 0 <= m < |s.orderEpisodeList| ==> s.orderEpisodeList[m].id != s.episodeList[s.currentEpisodeIndex].id
  {
    var correctIndex := FindIndexById(s.orderEpisodeList, s.episodeList[s.currentEpisodeIndex].id);
    s.(episodeList := s.orderEpisodeList, currentEpisodeIndex := correctIndex, isShuffling := false)
  }

  /** Turn shuffle on or off, as `ShuffleOn` and `ShuffleOff` describe. The
      flags other than `isShuffling` and the saved order never change, and
      enabling keeps the current episode where it is. */
  function ToggleShuffle(s: Session, picks: seq<nat>): (r: Session)
    requires HasCurrent(s)
    requires !s.isShuffling ==> Shuffle.ValidPicks(picks, |s.episodeList| - s.currentEpisodeIndex - 1)
    ensures r.isShuffling == !s.isShuffling
    ensures r.isPlaying == s.isPlaying && r.isLooping == s.isLooping
    ensures r.orderEpisodeList == s.orderEpisodeList
    // enabling
    ensures !s.isShuffling ==> |r.episodeList| == |s.episodeList|
    ensures !s.isShuffling ==> r.currentEpisodeIndex == s.currentEpisodeIndex
    ensures !s.isShuffling ==>
      r.episodeList[..s.currentEpisodeIndex + 1] == s.episodeList[..s.currentEpisodeIndex + 1]
    ensures !s.isShuffling ==>
      multiset(r.episodeList[s.currentEpisodeIndex + 1..]) == multiset(s.episodeList[s.currentEpisodeIndex + 1..])
    ensures !s.isShuffling ==> multiset(r.episodeList) == multiset(s.episodeList)
    // disabling
    ensures s.isShuffling ==> r.episodeList == s.orderEpisodeList
    ensures s.isShuffling ==> -1 <= r.currentEpisodeIndex < |r.episodeList|
    ensures s.isShuffling && 0 <= r.currentEpisodeIndex ==>
      r.episodeList[r.currentEpisodeIndex].id == s.episodeList[s.currentEpisodeIndex].id
    ensures s.isShuffling && r.currentEpisodeIndex == -1 ==>
      forall m :: 0 <= m < |s.orderEpisodeList| ==> s.orderEpisodeList[m].id != s.episodeList[s.currentEpisodeIndex].id
  {
    if s.isShuffling then ShuffleOff(s) else ShuffleOn(s, picks)
  }

  /** Nothing to step to in the initial state, which satisfies the invariant. */
  lemma InitialState()
    ensures !HasPrevious(Initial()) && !HasNext(Initial())
    ensures Inv(Initial())
  {
  }

  /** `playNext` moves exactly when `hasNext` holds, and then by one. */
  lemma PlayNextMovesIffHasNext(s: Session)
    ensures PlayNext(s) != s <==> HasNext(s)
    ensures HasNext(s) ==> PlayNext(s).currentEpisodeIndex == s.currentEpisodeIndex + 1
  {
  }

  /** From a valid index, `playPrevious` moves exactly when `hasPrevious`
      holds, and then by one. */
  lemma PlayPreviousMovesIffHasPrevious(s: Session)
    requires 0 <= s.currentEpisodeIndex
    ensures PlayPrevious(s) != s <==> HasPrevious(s)
    ensures HasPrevious(s) ==> PlayPrevious(s).currentEpisodeIndex == s.currentEpisodeIndex - 1
  {
  }

  /** Inside the queue, a step forward and a step back undo each other. */
  lemma NextPreviousInverse(s: Session)
    requires HasCurrent(s)
    ensures HasNext(s) ==> PlayPrevious(PlayNext(s)) == s
    ensures HasPrevious(s) ==> PlayNext(PlayPrevious(s)) == s
  {
  }

  /** With an empty queue neither step goes anywhere. */
  lemma EmptyQueueSteps(s: Session)
    requires |s.episodeList| == 0 && s.currentEpisodeIndex == 0
    ensures !HasNext(s) && !HasPrevious(s)
    ensures PlayNext(s) == s && PlayPrevious(s) == s
  {
  }

  /** The flag toggles undo themselves; setting the playing state twice is
      the same as setting it once. */
  lemma FlagLaws(s: Session, state: bool)
    ensures TogglePlay(TogglePlay(s)) == s
    ensures ToggleLoop(ToggleLoop(s)) == s
    ensures TogglePlay(s) == SetPlayingState(s, !s.isPlaying)
    ensures SetPlayingState(SetPlayingState(s, state), state) == SetPlayingState(s, state)
  {
  }

  /** Every transition other than the shuffle toggle keeps the invariant;
      `playList` needs an index inside the list it loads. */
  lemma SimpleTransitionsKeepInv(s: Session, e: Episode, list: seq<Episode>, index: int, state: bool)
    requires Inv(s)
    requires 0 <= index < |list|
    ensures Inv(Play(s, e)) && Inv(PlayList(s, list, index))
    ensures Inv(TogglePlay(s)) && Inv(ToggleLoop(s)) && Inv(SetPlayingState(s, state))
    ensures Inv(PlayNext(s)) && Inv(PlayPrevious(s))
  {
  }

  /** Because the queue is a permutation of the saved order, the current
      episode is always found again when shuffle is turned off. */
  lemma ShuffleOffRelocates(s: Session, picks: seq<nat>)
    requires Inv(s) && s.isShuffling && HasCurrent(s)
    ensures HasCurrent(ToggleShuffle(s, picks))
    ensures ToggleShuffle(s, picks).episodeList[ToggleShuffle(s, picks).currentEpisodeIndex].id
         == s.episodeList[s.currentEpisodeIndex].id
  {
    var e := s.episodeList[s.currentEpisodeIndex];
    assert e in multiset(s.orderEpisodeList);
    FoundWhenPresent(s.orderEpisodeList, e);
  }

  /** The shuffle toggle keeps the invariant. */
  lemma ToggleShuffleKeepsInv(s: Session, picks: seq<nat>)
    requires Inv(s) && HasCurrent(s)
    requires !s.isShuffling ==> Shuffle.ValidPicks(picks, |s.episodeList| - s.currentEpisodeIndex - 1)
    ensures Inv(ToggleShuffle(s, picks))
  {
    if s.isShuffling {
      ShuffleOffRelocates(s, picks);
    }
  }

  /** With distinct ids, toggling shuffle never changes which episode is
      current, in either direction. */
  lemma ToggleShuffleKeepsCurrentEpisode(s: Session, picks: seq<nat>, last: string)
    requires Inv(s) && HasCurrent(s)
    requires DistinctIds(s.orderEpisodeList)
    requires !s.isShuffling ==> Shuffle.ValidPicks(picks, |s.episodeList| - s.currentEpisodeIndex - 1)
    ensures HasCurrent(ToggleShuffle(s, picks))
    ensures ToggleShuffle(s, picks).episodeList[ToggleShuffle(s, picks).currentEpisodeIndex]
         == s.episodeList[s.currentEpisodeIndex]
    ensures CurrentEpisodeId(ToggleShuffle(s, picks), last) == CurrentEpisodeId(s, last)
  {
    var r := ToggleShuffle(s, picks);
    var e := s.episodeList[s.currentEpisodeIndex];
    if s.isShuffling {
      ShuffleOffRelocates(s, picks);
      assert e in multiset(s.orderEpisodeList);
      var m :| 0 <= m < |s.orderEpisodeList| && s.orderEpisodeList[m] == e;
      FoundAtItsPosition(s.orderEpisodeList, m);
    } else {
      var k := s.currentEpisodeIndex;
      assert r.episodeList[k] == r.episodeList[..k + 1][k];
    }
  }

  /** Turning shuffle on and straight off again restores the state exactly:
      the same queue, the same index and the same flags. */
  lemma ShuffleRoundTrip(s: Session, picks: seq<nat>)
    requires Inv(s) && !s.isShuffling && HasCurrent(s)
    requires DistinctIds(s.episodeList)
    requires Shuffle.ValidPicks(picks, |s.episodeList| - s.currentEpisodeIndex - 1)
    ensures HasCurrent(ToggleShuffle(s, picks))
    ensures ToggleShuffle(ToggleShuffle(s, picks), []) == s
  {
  }

  /** Four episodes A, B, C, D loaded at B: turning shuffle on keeps A, B in
      front and, with two episodes left, always exchanges C and D; turning it
      off gives back A, B, C, D at B. */
  lemma ShuffleScenario(a: Episode, b: Episode, c: Episode, d: Episode, picks: seq<nat>)
    requires DistinctIds([a, b, c, d])
    requires Shuffle.ValidPicks(picks, 2)
    ensures
      var s := PlayList(Initial(), [a, b, c, d], 1);
      var t := ToggleShuffle(s, picks);
      && t.episodeList == [a, b, d, c]
      && t.currentEpisodeIndex == 1
      && ToggleShuffle(t, []) == s
  {
    var s := PlayList(Initial(), [a, b, c, d], 1);
    assert s.episodeList[2..] == [c, d];
    assert s.episodeList[..2] == [a, b];
    Shuffle.TwoElementsAlwaysSwapped(c, d, picks);
    ShuffleRoundTrip(s, picks);
  }
}

=== FILE: shuffle.dfy ===
/** The swap loop that `toggleShuffle` runs over the unplayed part of the queue.
    The loop visits i = n-1 down to 1 and exchanges position i with a random
    position j. The random source is an oracle: `picks[k]` is the j drawn by
    the k-th iteration, which handles i = n-1-k, and it lies in [0, i) as
    `Math.floor(Math.random() * i)` does. Because j stays strictly below i,
    the loop is Sattolo's variant of the Fisher-Yates shuffle. */
module Shuffle {

  /** The oracle holds one draw per iteration of a loop over n elements, each
      strictly below the index that iteration handles. */
  predicate ValidPicks(picks: seq<nat>, n: int)
  {
    && n - 1 <= |picks|
    && forall k :: 0 <= k < n - 1 ==> picks[k] < n - 1 - k
  }

  /** Exchange the elements at positions i and j. */
  function Swap<T>(a: seq<T>, i: nat, j: nat): (b: seq<T>)
    requires i < |a| && j < |a|
    ensures |b| == |a|
    ensures b[i] == a[j] && b[j] == a[i]
    ensures forall k :: 0 <= k < |a| && k != i && k != j ==> b[k] == a[k]
  {
    seq(|a|, k requires 0 <= k < |a| => if k == j then a[i] else if k == i then a[j] else a[k])
  }

  /** Swapping through a temporary, as `toggleShuffle` does, is the same swap. */
  lemma SwapThroughTemporary<T>(a: seq<T>, i: nat, j: nat)
    requires i < |a| && j < |a|
    ensures a[i := a[j]][j := a[i]] == Swap(a, i, j)
  {
  }

  /** A swap only reorders. */
  lemma SwapPermutes<T>(a: seq<T>, i: nat, j: nat)
    requires i < |a| && j < |a|
    ensures multiset(Swap(a, i, j)) == multiset(a)
  {
    SwapThroughTemporary(a, i, j);
  }

  /** The values the loop variable takes: from n-1 down to 0, or just -1
      when there is nothing to shuffle. */
  predicate LoopIndex(n: int, i: int)
  {
    0 <= i < n || i == n - 1
  }

  /** The sequence when the loop variable has reached i: every iteration for
      the indices n-1 down to i+1 has run. */
  function LoopState<T>(rest: seq<T>, picks: seq<nat>, i: int): (a: seq<T>)
    requires ValidPicks(picks, |rest|)
    requires LoopIndex(|rest|, i)
    ensures |a| == |rest|
    decreases |rest| - i
  {
    if i >= |rest| - 1 then rest
    else Swap(LoopState(rest, picks, i + 1), i + 1, picks[|rest| - 2 - i])
  }

  /** The loop run to its exit: a reordering of the unplayed episodes. */
  function Shuffled<T>(rest: seq<T>, picks: seq<nat>): (r: seq<T>)
    requires ValidPicks(picks, |rest|)
    ensures |r| == |rest|
    ensures multiset(r) == multiset(rest)
  {
    if |rest| == 0 then rest
    else
      LoopStatePermutes(rest, picks, 0);
      LoopState(rest, picks, 0)
  }

  /** The loop as `toggleShuffle` writes it, swapping through a temporary.
      It only reorders, and the last slot receives the element at the first
      draw, which lies strictly below the last index. */
  method ShuffleRest<T>(rest: seq<T>, picks: seq<nat>) returns (shuffled: seq<T>)
    requires ValidPicks(picks, |rest|)
    ensures |shuffled| == |rest|
    ensures multiset(shuffled) == multiset(rest)
    ensures 2 <= |rest| ==> picks[0] < |rest| - 1 && shuffled[|rest| - 1] == rest[picks[0]]
    ensures shuffled == Shuffled(rest, picks)
  {
    var a := rest;
    var i := |rest| - 1;
    while i > 0
      invariant LoopIndex(|rest|, i)
      invariant a == LoopState(rest, picks, i)
      decreases i
    {
      var j := picks[|rest| - 1 - i];
      ghost var before := a;
      var temp := a[i];
      a := a[i := a[j]];
      a := a[j := temp];
      SwapThroughTemporary(before, i, j);
      i := i - 1;
    }
    shuffled := a;
    if 2 <= |rest| {
      LastSlotFilledFromBelow(rest, picks);
    }
  }

  /** Every iteration is a swap, so each loop state reorders the input. */
  lemma {:induction false} LoopStatePermutes<T>(rest: seq<T>, picks: seq<nat>, i: int)
    requires ValidPicks(picks, |rest|)
    requires LoopIndex(|rest|, i)
    ensures multiset(LoopState(rest, picks, i)) == multiset(rest)
    decreases |rest| - i
  {
    if i < |rest| - 1 {
      var before := LoopState(rest, picks, i + 1);
      var after := Swap(before, i + 1, picks[|rest| - 2 - i]);
      calc {
        multiset(after);
      == { SwapPermutes(before, i + 1, picks[|rest| - 2 - i]); }
        multiset(before);
      == { LoopStatePermutes(rest, picks, i + 1); }
        multiset(rest);
      }
    }
  }

  /** Once the loop variable is below m, positions above m no longer change. */
  lemma {:induction false} LoopStateKeepsAbove<T>(rest: seq<T>, picks: seq<nat>, i: int, m: int, k: int)
    requires ValidPicks(picks, |rest|)
    requires 0 <= i <= m < k < |rest|
    ensures LoopState(rest, picks, i)[k] == LoopState(rest, picks, m)[k]
    decreases m - i
  {
    if i < m {
      var before := LoopState(rest, picks, i + 1);
      var j := picks[|rest| - 2 - i];
      assert LoopState(rest, picks, i) == Swap(before, i + 1, j);
      assert j < i + 1 < k;
      LoopStateKeepsAbove(rest, picks, i + 1, m, k);
    }
  }

  /** The first iteration moves an element from strictly below the last index
      into the last slot, and no later iteration touches that slot. */
  lemma LastSlotFilledFromBelow<T>(rest: seq<T>, picks: seq<nat>)
    requires 2 <= |rest|
    requires ValidPicks(picks, |rest|)
    ensures picks[0] < |rest| - 1
    ensures Shuffled(rest, picks)[|rest| - 1] == rest[picks[0]]
  {
    var n := |rest|;
    assert LoopState(rest, picks, n - 2) == Swap(rest, n - 1, picks[0]);
    LoopStateKeepsAbove(rest, picks, 0, n - 2, n - 1);
  }

  /** Unlike the textbook shuffle, which may leave the last element in place,
      this loop always moves it when at least two distinct elements remain. */
  lemma LastElementAlwaysMoves<T>(rest: seq<T>, picks: seq<nat>)
    requires 2 <= |rest|
    requires ValidPicks(picks, |rest|)
    requires forall a, b :: 0 <= a < b < |rest| ==> rest[a] != rest[b]
    ensures Shuffled(rest, picks)[|rest| - 1] != rest[|rest| - 1]
  {
    LastSlotFilledFromBelow(rest, picks);
  }

  /** With exactly two unplayed episodes the loop always exchanges them. */
  lemma TwoElementsAlwaysSwapped<T>(x: T, y: T, picks: seq<nat>)
    requires ValidPicks(picks, 2)
    ensures Shuffled([x, y], picks) == [y, x]
  {
    assert picks[0] == 0;
    assert LoopState([x, y], picks, 0) == Swap([x, y], 1, 0);
  }
}

=== FILE: wrappers.dfy ===
/** Optional values, used where `episodeList[currentEpisodeIndex]` may be missing. */
module Wrappers {

  datatype Option<+T> = None | Some(value: T)
}
